=== FILE: README.md ===
# Canteen poller and report months: a Dafny model

This project models the two pure-logic pieces of the canteen coupon
application's monitoring and reporting blueprints.

- **The monitored-table poller** is in `blueprints/monitored_tables.py`. Each
  tick lists the tables whose name matches the LIKE pattern of the
  configured prefix (default `t_lg`) followed by six `[0-9]` classes, each
  with its row count. The intended set is the prefix followed by exactly six
  digits; the two differ when the prefix holds a LIKE wildcard (see
  Findings). The tick compares
  those counts with the snapshot kept from the previous tick. Every table that
  is new or whose count differs is reported, and a decrease counts like an
  increase. The tick then replaces the snapshot with the fetched counts. For
  each reported table, the latest event row is read. The eligibility check is
  called only when `str(DEVUID)` of that row is in the set of canteen device
  ids. That set holds the `str()` of every `sig_devices` id whose type is
  `canteen`.
- **The report month list** is `get_last_six_months` in `blueprints/reports.py`.
  It gives six `(year, month)` pairs starting at the current month and walking
  backwards; January steps to December of the previous year.

Modules, one per file:

- `Optional` (`optional.dfy`): the `Option` type.
- `Decimal` (`decimal.dfy`): Python's `str()` of an integer, with its inverse.
  The inverse proves that different integers get different text.
- `DeviceRegistry` (`device_registry.dfy`): device ids, their string key, and
  the id set of one device type.
- `ShardNames` (`shard_names.dfy`): the shard-name test; the SQL Server `LIKE`
  pattern the query actually uses; the monitored-table query.
- `SnapshotDiff` (`snapshot_diff.dfy`): one cycle of change detection over an
  explicit snapshot. In the source the snapshot is a module-level variable.
- `Poller` (`poller.dfy`): `row_count_change` and the whole
  `update_monitored_table_counts` tick.
- `Reports` (`reports.dfy`): the six-month walk.

Everything outside these modules becomes an argument. That covers the database
answers: the table catalog with row counts, each table's latest row, the device
registry rows, and whether the logger-table write succeeded. It also covers the
current month.

## Model

| member | source | states |
|---|---|---|
| Decimal.IntToString | blueprints/monitored_tables.py:133 | `str()` of an integer is non-empty; it starts with `-` exactly for negative numbers, and the rest is digits |
| Decimal.IntToStringRoundTrip | blueprints/monitored_tables.py:133 | reading the decimal text back gives the integer again |
| Decimal.IntToStringInjective | blueprints/monitored_tables.py:133 | two integer device ids have the same string form exactly when they are equal |
| DeviceRegistry.Key | blueprints/monitored_tables.py:133 | `str()` of a device id: a text id is its own key, and an integer id's key reads back as that integer |
| DeviceRegistry.TrimTrailingBlanks | blueprints/monitored_tables.py:228 | the trimmed text is a prefix of the stored text, does not end in a blank, and only blanks were dropped |
| DeviceRegistry.SqlEqualsPadded | blueprints/monitored_tables.py:228 | a stored device type equals a blank-free type name exactly when it is that name followed only by blanks, as T-SQL `=` compares VARCHAR values |
| DeviceRegistry.PaddedCanteenTypeSelected | blueprints/monitored_tables.py:228-231 | a device whose type is stored as `canteen ` (trailing blank) is in the canteen id set |
| DeviceRegistry.KeysOfType | blueprints/monitored_tables.py:230-231 | the fetch loop's set holds a key exactly when some row of the requested type has that `str(devid)` |
| DeviceRegistry.IdsOfType | blueprints/monitored_tables.py:224-235 | a failed registry query gives the empty set; otherwise the set holds exactly the string ids of the rows of that type |
| DeviceRegistry.CanteenDeviceIds | blueprints/monitored_tables.py:219-235 | the canteen id set holds exactly the string ids of rows typed `canteen` (trailing blanks ignored), and is empty when the query fails |
| DeviceRegistry.EntryDeviceIds | blueprints/monitored_tables.py:237-253 | the entry id set holds exactly the string ids of rows typed `entry` (trailing blanks ignored), and is empty when the query fails |
| DeviceRegistry.KeyOfNumId | blueprints/monitored_tables.py:133 | an integer id has the same string key as exactly two ids: itself and the text of its decimal form |
| ShardNames.IsShardName | blueprints/monitored_tables.py:12 | a shard name properly extends the prefix, and what follows the prefix is all digits |
| ShardNames.ShardPattern | blueprints/monitored_tables.py:31 | the pattern is the prefix's tokens followed by exactly six `[0-9]` classes |
| ShardNames.LikeMatch | blueprints/monitored_tables.py:37 | a pattern with no `%` matches only names of exactly its own length |
| ShardNames.PrefixTokens | blueprints/monitored_tables.py:31 | in the LIKE pattern, each prefix character stands for itself, except `_` (any one character) and `%` (any run) |
| ShardNames.LikeAcceptsShardNames | blueprints/monitored_tables.py:30-31 | every name that is the prefix followed by six digits matches the query's LIKE pattern |
| ShardNames.PrefixThenRest | blueprints/monitored_tables.py:31 | the pattern accepts any name that spells the prefix, up to the prefix's underscores, followed by something the rest of the pattern accepts |
| ShardNames.DigitRunMatch | blueprints/monitored_tables.py:31 | six `[0-9]` classes accept exactly the strings of six digits |
| ShardNames.LikeExactWithoutWildcards | blueprints/monitored_tables.py:30-31 | for a prefix without `_` or `%`, the LIKE pattern matches exactly the prefix followed by six digits |
| ShardNames.DefaultPrefixAdmitsForeignTable | blueprints/monitored_tables.py:20-31 | with the default prefix `t_lg`, the pattern matches `tXlg202501`, which is not the prefix followed by six digits |
| ShardNames.MonitoredTables | blueprints/monitored_tables.py:10-56 | the query gives exactly the catalog rows whose name is a shard name, and an empty list when it raises; distinct catalog names stay distinct |
| ShardNames.KeepShards | blueprints/monitored_tables.py:47-51 | each catalog row with a shard name is kept exactly as often as it occurs, no other row is kept, and distinct names stay distinct |
| ShardNames.MonitoredTablesAsWritten | blueprints/monitored_tables.py:31-56 | the query as written gives exactly the catalog rows whose name matches the LIKE pattern, and an empty list when it raises; distinct catalog names stay distinct |
| ShardNames.KeepLikeMatches | blueprints/monitored_tables.py:37-51 | each catalog row the LIKE pattern accepts is kept exactly as often as it occurs, no other row is kept, and distinct names stay distinct |
| ShardNames.FilterStepDistinct | blueprints/monitored_tables.py:47-51 | keeping or dropping the first of distinct-named rows in front of a filtered tail keeps the names distinct |
| ShardNames.KeepShardsKeepsOrder | blueprints/monitored_tables.py:47-51 | the shard filter keeps catalog order: filtering joined runs is joining the filtered runs |
| ShardNames.KeepLikeMatchesKeepsOrder | blueprints/monitored_tables.py:37-51 | the LIKE filter keeps catalog order in the same sense |
| ShardNames.AsWrittenNeverMisses | blueprints/monitored_tables.py:31-45 | the as-written query returns every table the intended one does |
| ShardNames.AsWrittenExactWithoutWildcards | blueprints/monitored_tables.py:31-45 | when the prefix has no `_` or `%`, the as-written and the intended query return the same tables |
| SnapshotDiff.Lookup | blueprints/monitored_tables.py:162 | `dict.get` is None exactly for a table missing from the snapshot, and otherwise gives its count |
| SnapshotDiff.Differs | blueprints/monitored_tables.py:163 | a count triggers a change exactly when the previous value is not that same count, whether missing, higher or lower |
| SnapshotDiff.Changes | blueprints/monitored_tables.py:159-164 | a change is reported exactly for a fetched row whose previous count is missing or differs; that change carries the previous and the fetched count |
| SnapshotDiff.ChangesInFetchOrder | blueprints/monitored_tables.py:159-164 | change `k` is the change of fetched row `ChangeOrigins(..)[k]`, and a later change always comes from a later row, so changes keep fetch order |
| SnapshotDiff.OriginsStep | blueprints/monitored_tables.py:159-164 | putting the first row's change in front of the rest's changes keeps every change matched with its row and the row positions increasing |
| SnapshotDiff.ChangesDistinctTables | blueprints/monitored_tables.py:159-164 | when the fetched names are distinct, no two changes of one cycle name the same table |
| SnapshotDiff.SnapshotOf | blueprints/monitored_tables.py:166 | the new snapshot's keys are the fetched names, and each maps to a count fetched for that name |
| SnapshotDiff.Cycle | blueprints/monitored_tables.py:152-166 | an empty fetch gives the error status, no changes and the old snapshot; otherwise the new snapshot has exactly the fetched names |
| SnapshotDiff.SnapshotOfDistinct | blueprints/monitored_tables.py:166 | with distinct names, the snapshot maps a name to a count exactly when that pair was fetched |
| SnapshotDiff.ChangeReportedIff | blueprints/monitored_tables.py:162-164 | a fetched table is reported, with its previous count, exactly when it had no previous count or a different one |
| SnapshotDiff.DecreaseReported | blueprints/monitored_tables.py:163 | a count that went down is reported |
| SnapshotDiff.FirstSightingReported | blueprints/monitored_tables.py:162-164 | a table not in the snapshot is reported with previous count None |
| SnapshotDiff.ChangesAreFetched | blueprints/monitored_tables.py:159-164 | every reported change is a fetched pair, with the snapshot's previous value, and the two counts really differ |
| SnapshotDiff.SnapshotAfterCycle | blueprints/monitored_tables.py:166 | after a non-empty cycle, tables missing from the fetch are dropped; with distinct names the snapshot is exactly the fetched mapping |
| SnapshotDiff.NothingDiffersNothingReported | blueprints/monitored_tables.py:162-164 | when the snapshot already holds every fetched count, nothing is reported |
| SnapshotDiff.SecondCycleQuiet | blueprints/monitored_tables.py:159-166 | a second cycle on the same distinct-named rows reports no change |
| SnapshotDiff.RepeatedNameNotQuiet | blueprints/monitored_tables.py:162-166 | if a name were fetched twice, the snapshot would keep the last count and the next cycle would report the earlier row again |
| Poller.RowCountChange | blueprints/monitored_tables.py:122-143 | the eligibility check is called, with that row's fields, exactly when the latest row exists and its `str(DEVUID)` is a canteen id; a failed query and an empty table are reported as such |
| Poller.HandleChanges | blueprints/monitored_tables.py:159-164 | each reported change, in order, is handled once by `row_count_change` for its own table |
| Poller.UpdateMonitoredTableCounts | blueprints/monitored_tables.py:145-188 | an empty fetch returns the no-data error, handles nothing and keeps the snapshot; otherwise the snapshot becomes the fetched names, and the report is success with the data exactly when the logger write succeeds |
| Poller.PollTick | blueprints/monitored_tables.py:153-164 | with the corrected query, only tables whose name is a shard name ever reach `row_count_change` |
| Poller.PollTickAsWritten | blueprints/monitored_tables.py:31-45 | with the query as written, every table reaching `row_count_change` matches the LIKE pattern |
| Poller.AsWrittenTickReachesForeignTable | blueprints/monitored_tables.py:31-45 | with the default prefix, the as-written tick hands `tXlg202501` to `row_count_change`, while the corrected tick hands it nothing |
| Poller.EligibilityCheckedIff | blueprints/monitored_tables.py:132-138 | a table's eligibility check is called exactly when its count is new or different and its latest row's device is a canteen id |
| Poller.EligibilityCheckedAtMostOnce | blueprints/monitored_tables.py:159-164 | with distinct fetched names, `row_count_change` and so the eligibility check run at most once per table in one tick |
| Poller.HandledInFetchOrder | blueprints/monitored_tables.py:159-164 | `row_count_change` is called in fetch order: each call handles the change of its fetched row, and a later call comes from a later row |
| Poller.RegistryFailureDispatchesNothing | blueprints/monitored_tables.py:224-235 | when the registry query fails, no event reaches the eligibility check |
| Poller.NumericDeviceDispatch | blueprints/monitored_tables.py:133 | an event from integer device `n` is dispatched exactly when the registry lists `n` as canteen, as an integer or as its decimal text |
| Poller.FailedFetchKeepsSnapshot | blueprints/monitored_tables.py:42-56 | a failed row-count query gives the no-data error, handles nothing and keeps the snapshot |
| Poller.SecondTickQuiet | blueprints/monitored_tables.py:159-166 | a second tick over unchanged, distinct-named tables calls nothing |
| Poller.AsWrittenTickOncePerTable | blueprints/monitored_tables.py:152-166 | on a catalog with distinct names, the tick as written calls `row_count_change` at most once per table, and a repeat tick from the snapshot it left calls nothing |
| Poller.PollTickOncePerTable | blueprints/monitored_tables.py:152-166 | the same for the tick with the intended shard-name test |
| Reports.EarlierIffSmallerIndex | blueprints/reports.py:7 | calendar order is the order of month positions |
| Reports.Previous | blueprints/reports.py:17-20 | one step back is a valid month, one position earlier and earlier in calendar order |
| Reports.LastSixMonths | blueprints/reports.py:7-21 | there are exactly six months. The first is the current month, each later one is the month before its predecessor, and January steps to December of the year before. The i-th is i months back, all are in 1..12, and they strictly descend, so none repeats |

## Findings

| source | as written | input that shows it | evidently intended | confidence | as-written member | corrected member |
|---|---|---|---|---|---|---|
| blueprints/monitored_tables.py:31 | the shard tables are selected with `LIKE prefix + "[0-9]"*6`. In SQL Server LIKE, `_` in the default prefix `t_lg` matches any one character, and `%` would match any run | prefix `t_lg`, table `tXlg202501` | only tables named exactly the prefix followed by six digits, as the function's docstring says | not executed; the wildcard meaning of `_` in LIKE is standard SQL Server behaviour | ShardNames.DefaultPrefixAdmitsForeignTable | ShardNames.MonitoredTables |

The tick (`Poller.PollTick`) uses the corrected `ShardNames.MonitoredTables`.
`ShardNames.AsWrittenNeverMisses` and `ShardNames.AsWrittenExactWithoutWildcards`
show how the two relate. The
as-written query never misses a true shard table. It differs only by admitting
extra tables, and only when the prefix contains `_` or `%`.

## Left out

- Database access is left out: the ODBC connections, the catalog and
  `SELECT TOP 1` queries, and the logger database's CREATE TABLE, DELETE and
  INSERT. Their answers are arguments.
- The database computes the row counts, so `ORDER BY t.name` and the sum over
  partitions are not modelled. The model keeps the catalog rows in the order
  given.
- Case-insensitive collation in LIKE is not modelled; names are compared
  character by character. A `[` inside the prefix, which LIKE would read as a
  character class, is treated as an ordinary character.
- DeviceRegistry.CanteenDeviceIds and DeviceRegistry.EntryDeviceIds model the
  `WHERE device_type = 'canteen'` and `= 'entry'` filters (lines 228 and 246)
  with T-SQL's padding rule, so trailing blanks are ignored. Under SQL Server's
  default case-insensitive collation, `=` also ignores case, and the model does
  not. The source selects a row typed `Canteen`, but the model does not. The
  collation is a database setting that is not visible here.
- Ticks are assumed to run one at a time. In the source,
  `update_monitored_table_counts` reads and rebinds the module-level
  `previous_monitored_counts` (lines 8, 152, 162 and 166) without a lock. It is
  reachable from the `/dashboard/update_monitored_counts` route (lines 197-202)
  and from the application's polling thread. Two overlapping ticks can compare
  against the same old snapshot, so both call `row_count_change` for the same
  change. A slower tick can also overwrite a newer snapshot.
  `SnapshotDiff.SecondCycleQuiet`, `Poller.SecondTickQuiet` and
  `Poller.EligibilityCheckedIff` hold only for ticks run one after another.
- `get_logger_db_conn` is called outside any `try` (lines 77 and 171). When it
  raises, the exception leaves `update_monitored_table_counts`. The
  application's polling loop (`background_check`) calls it with no `try`
  around the call, so the exception ends the polling thread and no later tick
  runs until the process restarts. The model only has the caught write error
  (`StoreFailed`) and does not model that thread at all.
- `row_count_change` queries the canteen id set again for every changed table.
  The model takes one set per tick, so it assumes the registry does not change
  during a tick.
- `check_elegibility` (lines 205-216) only prints its arguments. The model
  stops at the decision to call it.
- Printing and logging are not modelled.
- DEVDT is carried as an uninterpreted integer and USRID as text.
- The Flask routes, sessions and redirects are left out, and so is everything
  in `blueprints/auth.py` (bcrypt), `blueprints/utils.py`,
  `blueprints/configuration.py` (printers, JSON configuration),
  `config.py`, `blueprints/debug_bp.py` and `test.py`. These are I/O or calls
  into libraries that are not visible here.
- Reports.LastSixMonths: `datetime.now()` is replaced by the `now` argument, and
  `strftime("%B %Y")` by the `(year, month)` pair. Years are unbounded
  integers, so the `ValueError` that `datetime` raises below year 1 is not
  modelled. It could only happen if the clock read January to May of year 1.

=== FILE: decimal.dfy ===
/** Decimal text of integers, as Python's `str()` writes an `int`: an optional
    minus sign followed by digits with no leading zero. Device ids are compared
    through this text, so it matters that different integers give different text;
    `ParseInt` is the inverse that proves it. */
module Decimal {
  import opened Optional

  predicate IsDigit(c: char) {
    '0' <= c <= '9'
  }

  predicate AllDigits(s: string) {
    forall i :: 0 <= i < |s| ==> IsDigit(s[i])
  }

  function DigitChar(d: nat): (c: char)
    requires d < 10
    ensures IsDigit(c)
    ensures c == '0' <==> d == 0
  {
    ('0' as int + d) as char
  }

  function DigitValue(c: char): (d: nat)
    requires IsDigit(c)
    ensures d < 10
    ensures DigitChar(d) == c
  {
    c as int - '0' as int
  }

  /** The digits of `n`, most significant first, without leading zeros. */
  function NatDigits(n: nat): (s: string)
    ensures |s| > 0 && AllDigits(s)
    ensures |s| > 1 ==> s[0] != '0'
    ensures |s| == 1 <==> n < 10
    decreases n
  {
    if n < 10 then [DigitChar(n)] else NatDigits(n / 10) + [DigitChar(n % 10)]
  }

  /** The number a string of digits denotes (leading zeros allowed). */
  function DigitsValue(s: string): nat
    requires AllDigits(s)
    decreases |s|
  {
    if |s| == 0 then 0 else 10 * DigitsValue(s[..|s| - 1]) + DigitValue(s[|s| - 1])
  }

  /** Python's `str(n)` for an integer `n`. */
  function IntToString(n: int): (s: string)
    ensures |s| > 0
    ensures s[0] == '-' <==> n < 0
    ensures n < 0 ==> |s| > 1 && AllDigits(s[1..])
    ensures n >= 0 ==> AllDigits(s)
  {
    if n < 0 then "-" + NatDigits(-n) else NatDigits(n)
  }

  /** Reads back an optionally signed run of digits; None for anything else. */
  function ParseInt(s: string): Option<int> {
    if |s| > 1 && s[0] == '-' && AllDigits(s[1..]) then Some(0 - DigitsValue(s[1..]) as int)
    else if |s| > 0 && AllDigits(s) then Some(DigitsValue(s))
    else None
  }

  lemma {:induction false} NatDigitsRoundTrip(n: nat)
    ensures DigitsValue(NatDigits(n)) == n
    decreases n
  {
    if n >= 10 {
      NatDigitsRoundTrip(n / 10);
      var s := NatDigits(n);
      assert s[..|s| - 1] == NatDigits(n / 10);
    }
  }

  /** `str` is inverted by `ParseInt` on every integer. */
  lemma IntToStringRoundTrip(n: int)
    ensures ParseInt(IntToString(n)) == Some(n)
  {
    var s := IntToString(n);
    if n < 0 {
      NatDigitsRoundTrip(-n);
      assert s[1..] == NatDigits(-n);
      assert |s| > 1 && s[0] == '-' && AllDigits(s[1..]);
    } else {
      NatDigitsRoundTrip(n);
      assert s == NatDigits(n) && s[0] != '-';
    }
  }

  /** Two integers have the same decimal text exactly when they are equal. */
  lemma IntToStringInjective(m: int, n: int)
    ensures IntToString(m) == IntToString(n) <==> m == n
  {
    if IntToString(m) == IntToString(n) {
      IntToStringRoundTrip(m);
      IntToStringRoundTrip(n);
    }
  }
}

=== FILE: device_registry.dfy ===
/** The registry of scanner devices kept in the logger database's `sig_devices`
    table (blueprints/monitored_tables.py, get_canteen_device_ids and
    get_entry_device_ids). Each row gives a device id and a device type; the
    registry is read as the set of ids of one type, every id turned into its
    string form so that an integer id and its decimal text compare equal. */
module DeviceRegistry {
  import opened Optional
  import Decimal

  /** A device id as the database driver hands it back: an integer column
      value or a text column value. */
  datatype DeviceId = NumId(n: int) | TextId(s: string)

  /** A row of `sig_devices`: the id and the device type text. */
  datatype DeviceRow = DeviceRow(devid: DeviceId, deviceType: string)

  const CanteenType: string := "canteen"
  const EntryType: string := "entry"

  /** Python's `str(devid)`: the key under which device ids are compared. A
      text id is its own key; an integer id's key reads back as that integer. */
  function Key(id: DeviceId): (k: string)
    ensures id.TextId? ==> k == id.s
    ensures id.NumId? ==> Decimal.ParseInt(k) == Some(id.n)
  {
    match id
    case NumId(n) =>
      Decimal.IntToStringRoundTrip(n);
      Decimal.IntToString(n)
    case TextId(s) => s
  }

  /** `s` without its trailing blanks. */
  function TrimTrailingBlanks(s: string): (t: string)
    ensures t <= s
    ensures |t| == 0 || t[|t| - 1] != ' '
    ensures forall i :: |t| <= i < |s| ==> s[i] == ' '
    decreases |s|
  {
    if |s| > 0 && s[|s| - 1] == ' ' then TrimTrailingBlanks(s[..|s| - 1]) else s
  }

  /** T-SQL `a = b` on VARCHAR values: trailing blanks are ignored (the
      shorter value is padded with blanks before comparing). */
  predicate SqlEquals(a: string, b: string) {
    TrimTrailingBlanks(a) == TrimTrailingBlanks(b)
  }

  /** A stored type equals a blank-free type name exactly when it is that name
      followed by blanks only. */
  lemma SqlEqualsPadded(stored: string, kind: string)
    requires |kind| > 0 && kind[|kind| - 1] != ' '
    ensures SqlEquals(stored, kind) <==>
      kind <= stored && forall i :: |kind| <= i < |stored| ==> stored[i] == ' '
  {
    var t := TrimTrailingBlanks(stored);
    if kind <= stored && forall i :: |kind| <= i < |stored| ==> stored[i] == ' ' {
      // both `t` and `kind` are the blank-free heads of `stored`
      assert t == stored[..|t|] && kind == stored[..|kind|];
    }
  }

  /** True when `row` has type `kind`, compared as the
      `WHERE device_type = ...` clause does, and string key `k`. */
  predicate RowHas(row: DeviceRow, kind: string, k: string) {
    SqlEquals(row.deviceType, kind) && Key(row.devid) == k
  }

  /** The keys of the rows of type `kind`, added one row at a time as the
      source's fetch loop does. */
  function KeysOfType(rows: seq<DeviceRow>, kind: string): (ids: set<string>)
    ensures forall k :: k in ids <==> exists i :: 0 <= i < |rows| && RowHas(rows[i], kind, k)
    decreases |rows|
  {
    if |rows| == 0 then {}
    else
      var front := rows[..|rows| - 1];
      var last := rows[|rows| - 1];
      var before := KeysOfType(front, kind);
      var ids := if SqlEquals(last.deviceType, kind) then before + {Key(last.devid)} else before;
      KeysStep(rows, front, kind, before);
      ids
  }

  /** One step of `KeysOfType`: the keys of all rows but the last, plus the
      last row's key when its type matches, are the keys of all rows. */
  lemma {:induction false} KeysStep(rows: seq<DeviceRow>, front: seq<DeviceRow>, kind: string, before: set<string>)
    requires |rows| > 0 && front == rows[..|rows| - 1]
    requires forall k :: k in before <==> exists i :: 0 <= i < |front| && RowHas(front[i], kind, k)
    ensures var last := rows[|rows| - 1];
      var ids := if SqlEquals(last.deviceType, kind) then before + {Key(last.devid)} else before;
      forall k :: k in ids <==> exists i :: 0 <= i < |rows| && RowHas(rows[i], kind, k)
  {
    forall k | k in before
      ensures exists i :: 0 <= i < |rows| && RowHas(rows[i], kind, k)
    {
      var i :| 0 <= i < |front| && RowHas(front[i], kind, k);
      assert RowHas(rows[i], kind, k);
    }
    forall k | exists i :: 0 <= i < |rows| && RowHas(rows[i], kind, k)
      ensures k in before || RowHas(rows[|rows| - 1], kind, k)
    {
      var i :| 0 <= i < |rows| && RowHas(rows[i], kind, k);
      if i < |front| {
        assert RowHas(front[i], kind, k);
      }
    }
  }

  /** The id set of one device type; `table` is None when the registry query
      raised, in which case the error is swallowed and the set is empty. */
  function IdsOfType(table: Option<seq<DeviceRow>>, kind: string): (ids: set<string>)
    ensures table.None? ==> ids == {}
    ensures table.Some? ==>
      forall k :: k in ids <==> exists i :: 0 <= i < |table.value| && RowHas(table.value[i], kind, k)
  {
    match table
    case None => {}
    case Some(rows) => KeysOfType(rows, kind)
  }

  /** get_canteen_device_ids */
  function CanteenDeviceIds(table: Option<seq<DeviceRow>>): (ids: set<string>)
    ensures table.None? ==> ids == {}
    ensures table.Some? ==>
      forall k :: k in ids <==> exists i :: 0 <= i < |table.value| && RowHas(table.value[i], CanteenType, k)
  {
    IdsOfType(table, CanteenType)
  }

  /** get_entry_device_ids */
  function EntryDeviceIds(table: Option<seq<DeviceRow>>): (ids: set<string>)
    ensures table.None? ==> ids == {}
    ensures table.Some? ==>
      forall k :: k in ids <==> exists i :: 0 <= i < |table.value| && RowHas(table.value[i], EntryType, k)
  {
    IdsOfType(table, EntryType)
  }

  /** Normalisation: an integer id has the same key as exactly two ids, itself
      and the text of its decimal form. */
  lemma KeyOfNumId(n: int, id: DeviceId)
    ensures Key(id) == Key(NumId(n)) <==> id == NumId(n) || id == TextId(Decimal.IntToString(n))
  {
    if id.NumId? {
      Decimal.IntToStringInjective(id.n, n);
    }
  }

  /** A type stored with trailing blanks still selects the device. */
  lemma PaddedCanteenTypeSelected()
    ensures CanteenDeviceIds(Some([DeviceRow(TextId("7"), "canteen ")])) == {"7"}
  {
    var rows := [DeviceRow(TextId("7"), "canteen ")];
    SqlEqualsPadded("canteen ", CanteenType);
    assert RowHas(rows[0], CanteenType, "7");
  }
}

=== FILE: optional.dfy ===
/** The value-or-nothing type used wherever the source reads a value that may be
    absent: `dict.get` returning None, a query that raised, a cursor with no row. */
module Optional {

  datatype Option<+T> = None | Some(value: T)
}

=== FILE: poller.dfy ===
/** One tick of the monitored-table poller (blueprints/monitored_tables.py,
    update_monitored_table_counts and row_count_change): detect changed shard
    tables, look up the latest event of each, and hand it to the eligibility
    check only when its device is registered as a canteen device. The database
    answers (the row-count query, each table's latest row, the canteen id set
    and the logger-table write) are arguments; the eligibility check itself
    only logs, so the model stops at the decision to call it. */
module Poller {
  import opened Optional
  import opened DeviceRegistry
  import opened ShardNames
  import opened SnapshotDiff
  import Decimal

  /** The latest row of a shard table: DEVDT, DEVUID and USRID. */
  datatype EventRow = EventRow(devdt: int, devuid: DeviceId, usrid: string)

  /** The answer to `SELECT TOP 1 DEVDT, DEVUID, USRID ... ORDER BY SRVDT DESC`. */
  datatype LatestEvent = EventQueryFailed | NoEventRows | LatestRow(row: EventRow)

  /** What row_count_change does with one changed table. */
  datatype Outcome =
    | EventLookupFailed   // the query raised; the error is printed
    | NoEventDetails      // the table has no rows
    | NotCanteen(key: string)
    | CheckEligibility(table: string, devdt: int, devuid: DeviceId, usrid: string)

  /** The logger database's DELETE and INSERT of the fetched counts. */
  datatype StoreWrite = Stored | StoreFailed(message: string)

  /** The dictionary update_monitored_table_counts returns. */
  datatype Report = NoDataError | Success(data: seq<TableCount>) | StoreError(message: string)

  datatype Handled = Handled(change: Change, outcome: Outcome)

  /** Everything one tick produces: its report, what was done with each change
      (in order) and the snapshot kept for the next tick. */
  datatype Tick = Tick(report: Report, handled: seq<Handled>, snapshot: map<string, int>)

  /** row_count_change: the eligibility check runs exactly when the table has a
      latest row and `str(DEVUID)` is one of the canteen ids. */
  function RowCountChange(table: string, latest: LatestEvent, canteenIds: set<string>): (o: Outcome)
    ensures o.CheckEligibility? <==> latest.LatestRow? && Key(latest.row.devuid) in canteenIds
    ensures o.CheckEligibility? ==>
      o == CheckEligibility(table, latest.row.devdt, latest.row.devuid, latest.row.usrid)
    ensures o.NotCanteen? ==> latest.LatestRow? && o.key == Key(latest.row.devuid) && o.key !in canteenIds
    ensures o.EventLookupFailed? <==> latest.EventQueryFailed?
    ensures o.NoEventDetails? <==> latest.NoEventRows?
  {
    match latest
    case EventQueryFailed => EventLookupFailed
    case NoEventRows => NoEventDetails
    case LatestRow(row) =>
      if Key(row.devuid) in canteenIds then CheckEligibility(table, row.devdt, row.devuid, row.usrid)
      else NotCanteen(Key(row.devuid))
  }

  /** Calls row_count_change for each change, in order. */
  function HandleChanges(changes: seq<Change>, latestOf: string -> LatestEvent, canteenIds: set<string>): (hs: seq<Handled>)
    ensures |hs| == |changes|
    ensures forall i :: 0 <= i < |hs| ==>
      hs[i] == Handled(changes[i], RowCountChange(changes[i].table, latestOf(changes[i].table), canteenIds))
    decreases |changes|
  {
    if |changes| == 0 then []
    else
      var c := changes[0];
      [Handled(c, RowCountChange(c.table, latestOf(c.table), canteenIds))]
        + HandleChanges(changes[1..], latestOf, canteenIds)
  }

  /** update_monitored_table_counts given the fetched rows, each table's latest
      event, the canteen id set and the result of the logger write. */
  function UpdateMonitoredTableCounts(
    snapshot: map<string, int>, fetched: seq<TableCount>,
    latestOf: string -> LatestEvent, canteenIds: set<string>, store: StoreWrite): (t: Tick)
    ensures |fetched| == 0 ==> t == Tick(NoDataError, [], snapshot)
    ensures |fetched| > 0 ==> t.snapshot.Keys == Names(fetched)
    ensures |fetched| > 0 ==> (t.report.Success? <==> store.Stored?)
    ensures t.report.Success? ==> t.report.data == fetched
    ensures |t.handled| <= |fetched|
  {
    var step := Cycle(snapshot, fetched);
    if step.status == NoDataRetrieved then Tick(NoDataError, [], snapshot)
    else
      var handled := HandleChanges(step.changes, latestOf, canteenIds);
      var report := match store
        case Stored => Success(fetched)
        case StoreFailed(msg) => StoreError(msg);
      Tick(report, handled, step.next)
  }

  /** A full tick, the row-count query included: `catalog` is None when that
      query raised. */
  function PollTick(
    prefix: string, catalog: Option<seq<TableCount>>, snapshot: map<string, int>,
    latestOf: string -> LatestEvent, canteenIds: set<string>, store: StoreWrite): (t: Tick)
    ensures forall h :: h in t.handled ==> IsShardName(prefix, h.change.table)
  {
    var fetched := MonitoredTables(prefix, catalog);
    var t := UpdateMonitoredTableCounts(snapshot, fetched, latestOf, canteenIds, store);
    assert forall h :: h in t.handled ==> IsShardName(prefix, h.change.table) by {
      forall h | h in t.handled
        ensures IsShardName(prefix, h.change.table)
      {
        var i :| 0 <= i < |t.handled| && t.handled[i] == h;
        var cs := Cycle(snapshot, fetched).changes;
        assert h.change == cs[i] && cs[i] in cs;
      }
    }
    t
  }

  /** The same tick with the row-count query as written (LIKE pattern). */
  function PollTickAsWritten(
    prefix: string, catalog: Option<seq<TableCount>>, snapshot: map<string, int>,
    latestOf: string -> LatestEvent, canteenIds: set<string>, store: StoreWrite): (t: Tick)
    ensures forall h :: h in t.handled ==> LikeMatch(ShardPattern(prefix), h.change.table)
  {
    var fetched := MonitoredTablesAsWritten(prefix, catalog);
    var t := UpdateMonitoredTableCounts(snapshot, fetched, latestOf, canteenIds, store);
    assert forall h :: h in t.handled ==> LikeMatch(ShardPattern(prefix), h.change.table) by {
      forall h | h in t.handled
        ensures LikeMatch(ShardPattern(prefix), h.change.table)
      {
        var i :| 0 <= i < |t.handled| && t.handled[i] == h;
        var cs := Cycle(snapshot, fetched).changes;
        assert h.change == cs[i] && cs[i] in cs;
      }
    }
    t
  }

  /** As written, the default prefix hands the foreign table "tXlg202501" to
      row_count_change; the corrected tick does not. */
  lemma AsWrittenTickReachesForeignTable(latestOf: string -> LatestEvent, canteenIds: set<string>, store: StoreWrite)
    ensures var catalog := Some([TableCount("tXlg202501", 3)]);
      && PollTickAsWritten(DefaultPrefix, catalog, map[], latestOf, canteenIds, store).handled
         == [Handled(Change("tXlg202501", None, 3), RowCountChange("tXlg202501", latestOf("tXlg202501"), canteenIds))]
      && PollTick(DefaultPrefix, catalog, map[], latestOf, canteenIds, store).handled == []
  {
    var e := TableCount("tXlg202501", 3);
    var catalog := Some([e]);
    DefaultPrefixAdmitsForeignTable();
    assert MonitoredTablesAsWritten(DefaultPrefix, catalog) == [e] by {
      assert [e][1..] == [];
    }
    assert MonitoredTables(DefaultPrefix, catalog) == [] by {
      assert [e][1..] == [];
    }
    var cs := Cycle(map[], [e]).changes;
    assert [e][1..] == [];
    assert cs == [Change("tXlg202501", None, 3)];
  }

  /** The eligibility check is called for a table exactly when the table was
      fetched with a count that is new or different, and its latest row comes
      from a device whose string id is a canteen id. */
  lemma EligibilityCheckedIff(
    snapshot: map<string, int>, fetched: seq<TableCount>,
    latestOf: string -> LatestEvent, canteenIds: set<string>, store: StoreWrite, table: string)
    ensures var t := UpdateMonitoredTableCounts(snapshot, fetched, latestOf, canteenIds, store);
      (exists h :: h in t.handled && h.outcome.CheckEligibility? && h.change.table == table)
      <==>
      && (exists e :: e in fetched && e.name == table && Differs(Lookup(snapshot, table), e.count))
      && latestOf(table).LatestRow?
      && Key(latestOf(table).row.devuid) in canteenIds
  {
    var t := UpdateMonitoredTableCounts(snapshot, fetched, latestOf, canteenIds, store);
    var cs := Cycle(snapshot, fetched).changes;
    if exists h :: h in t.handled && h.outcome.CheckEligibility? && h.change.table == table {
      var h :| h in t.handled && h.outcome.CheckEligibility? && h.change.table == table;
      var i :| 0 <= i < |t.handled| && t.handled[i] == h;
      assert cs[i] in cs;
      var j :| 0 <= j < |fetched| && cs[i] == ChangeFor(snapshot, fetched[j]) && Differs(cs[i].previous, cs[i].current);
      assert fetched[j] in fetched;
    }
    if exists e :: e in fetched && e.name == table && Differs(Lookup(snapshot, table), e.count) {
      var e :| e in fetched && e.name == table && Differs(Lookup(snapshot, table), e.count);
      ChangeReportedIff(snapshot, fetched, e);
      var c := Change(e.name, Lookup(snapshot, e.name), e.count);
      var i :| 0 <= i < |cs| && cs[i] == c;
      assert t.handled[i] in t.handled;
    }
  }

  /** With distinct fetched names (the row-count query groups by table), no
      two handled changes of one tick share a table: row_count_change, and
      with it the eligibility check, runs at most once per table per tick. */
  lemma {:induction false} EligibilityCheckedAtMostOnce(
    snapshot: map<string, int>, fetched: seq<TableCount>,
    latestOf: string -> LatestEvent, canteenIds: set<string>, store: StoreWrite)
    requires DistinctNames(fetched)
    ensures var t := UpdateMonitoredTableCounts(snapshot, fetched, latestOf, canteenIds, store);
      forall i, j :: 0 <= i < j < |t.handled| ==> t.handled[i].change.table != t.handled[j].change.table
  {
    ChangesDistinctTables(snapshot, fetched);
  }

  /** row_count_change is called in fetch order: handled change `k` is the
      change of fetched row `ChangeOrigins(..)[k]`, and a later call comes
      from a later row. */
  lemma {:induction false} HandledInFetchOrder(
    snapshot: map<string, int>, fetched: seq<TableCount>,
    latestOf: string -> LatestEvent, canteenIds: set<string>, store: StoreWrite)
    ensures var t := UpdateMonitoredTableCounts(snapshot, fetched, latestOf, canteenIds, store);
      var origins := ChangeOrigins(snapshot, fetched);
      && |origins| == |t.handled|
      && (forall k :: 0 <= k < |t.handled| ==>
            0 <= origins[k] < |fetched| && t.handled[k].change == ChangeFor(snapshot, fetched[origins[k]]))
      && (forall k, l :: 0 <= k < l < |t.handled| ==> origins[k] < origins[l])
  {
    ChangesInFetchOrder(snapshot, fetched);
    if |fetched| == 0 {
      assert ChangeOrigins(snapshot, fetched) == [];
    }
  }

  /** When the registry query fails the canteen id set is empty, so no change
      reaches the eligibility check. */
  lemma RegistryFailureDispatchesNothing(
    snapshot: map<string, int>, fetched: seq<TableCount>,
    latestOf: string -> LatestEvent, store: StoreWrite)
    ensures var t := UpdateMonitoredTableCounts(snapshot, fetched, latestOf, CanteenDeviceIds(None), store);
      forall h :: h in t.handled ==> !h.outcome.CheckEligibility?
  {
  }

  /** An event from numeric device `n` is dispatched exactly when the registry
      lists `n` as a canteen device, as an integer or as its decimal text. */
  lemma NumericDeviceDispatch(table: string, devdt: int, n: int, usrid: string, rows: seq<DeviceRow>)
    ensures
      RowCountChange(table, LatestRow(EventRow(devdt, NumId(n), usrid)), CanteenDeviceIds(Some(rows))).CheckEligibility?
      <==>
      exists i :: 0 <= i < |rows| && SqlEquals(rows[i].deviceType, CanteenType)
        && (rows[i].devid == NumId(n) || rows[i].devid == TextId(Decimal.IntToString(n)))
  {
    var k := Key(NumId(n));
    var ids := CanteenDeviceIds(Some(rows));
    if k in ids {
      var i :| 0 <= i < |rows| && RowHas(rows[i], CanteenType, k);
      KeyOfNumId(n, rows[i].devid);
    }
    if exists i :: 0 <= i < |rows| && SqlEquals(rows[i].deviceType, CanteenType)
        && (rows[i].devid == NumId(n) || rows[i].devid == TextId(Decimal.IntToString(n))) {
      var i :| 0 <= i < |rows| && SqlEquals(rows[i].deviceType, CanteenType)
        && (rows[i].devid == NumId(n) || rows[i].devid == TextId(Decimal.IntToString(n)));
      KeyOfNumId(n, rows[i].devid);
      assert RowHas(rows[i], CanteenType, k);
    }
  }

  /** A failed row-count query looks like an empty one: the tick reports the
      error, handles nothing and keeps the snapshot. */
  lemma FailedFetchKeepsSnapshot(
    prefix: string, snapshot: map<string, int>,
    latestOf: string -> LatestEvent, canteenIds: set<string>, store: StoreWrite)
    ensures PollTick(prefix, None, snapshot, latestOf, canteenIds, store) == Tick(NoDataError, [], snapshot)
  {
  }

  /** A second tick over unchanged tables calls nothing. */
  lemma SecondTickQuiet(
    snapshot: map<string, int>, fetched: seq<TableCount>,
    latestOf: string -> LatestEvent, canteenIds: set<string>, store: StoreWrite)
    requires DistinctNames(fetched)
    ensures var first := UpdateMonitoredTableCounts(snapshot, fetched, latestOf, canteenIds, store);
      UpdateMonitoredTableCounts(first.snapshot, fetched, latestOf, canteenIds, store).handled == []
  {
    SecondCycleQuiet(snapshot, fetched);
  }

  /** On a catalog with distinct names (the row-count query groups by table),
      the tick as written calls row_count_change at most once per table, and
      a repeat tick on the same catalog from the snapshot it left calls it for
      nothing. */
  lemma {:induction false} AsWrittenTickOncePerTable(
    prefix: string, catalog: Option<seq<TableCount>>, snapshot: map<string, int>,
    latestOf: string -> LatestEvent, canteenIds: set<string>, store: StoreWrite)
    requires catalog.Some? ==> DistinctNames(catalog.value)
    ensures var t := PollTickAsWritten(prefix, catalog, snapshot, latestOf, canteenIds, store);
      && (forall i, j :: 0 <= i < j < |t.handled| ==> t.handled[i].change.table != t.handled[j].change.table)
      && PollTickAsWritten(prefix, catalog, t.snapshot, latestOf, canteenIds, store).handled == []
  {
    var fetched := MonitoredTablesAsWritten(prefix, catalog);
    EligibilityCheckedAtMostOnce(snapshot, fetched, latestOf, canteenIds, store);
    SecondTickQuiet(snapshot, fetched, latestOf, canteenIds, store);
  }

  /** The same for the tick with the intended shard-name test. */
  lemma {:induction false} PollTickOncePerTable(
    prefix: string, catalog: Option<seq<TableCount>>, snapshot: map<string, int>,
    latestOf: string -> LatestEvent, canteenIds: set<string>, store: StoreWrite)
    requires catalog.Some? ==> DistinctNames(catalog.value)
    ensures var t := PollTick(prefix, catalog, snapshot, latestOf, canteenIds, store);
      && (forall i, j :: 0 <= i < j < |t.handled| ==> t.handled[i].change.table != t.handled[j].change.table)
      && PollTick(prefix, catalog, t.snapshot, latestOf, canteenIds, store).handled == []
  {
    var fetched := MonitoredTables(prefix, catalog);
    EligibilityCheckedAtMostOnce(snapshot, fetched, latestOf, canteenIds, store);
    SecondTickQuiet(snapshot, fetched, latestOf, canteenIds, store);
  }
}

=== FILE: reports.dfy ===
/** The month list of the reports page (blueprints/reports.py,
    get_last_six_months): starting at the current month, six calendar months
    walking backwards, January stepping to December of the previous year. The
    current month is an argument instead of the clock, and the months are
    `(year, month)` pairs instead of their "%B %Y" text. */
module Reports {

  datatype YearMonth = YearMonth(year: int, month: int)

  const MonthsShown: nat := 6

  predicate ValidMonth(ym: YearMonth) {
    1 <= ym.month <= 12
  }

  /** The position of a month on a single count of months since year 0. */
  function MonthIndex(ym: YearMonth): int {
    ym.year * 12 + (ym.month - 1)
  }

  /** The month at a given position; the inverse of `MonthIndex`. */
  function FromIndex(k: int): (ym: YearMonth)
    ensures ValidMonth(ym)
    ensures MonthIndex(ym) == k
  {
    YearMonth(k / 12, k % 12 + 1)
  }

  lemma IndexRoundTrip(ym: YearMonth)
    requires ValidMonth(ym)
    ensures FromIndex(MonthIndex(ym)) == ym
  {
    var k := MonthIndex(ym);
    assert k / 12 == ym.year && k % 12 == ym.month - 1;
  }

  /** Calendar order: an earlier year, or the same year and an earlier month. */
  predicate Earlier(a: YearMonth, b: YearMonth) {
    a.year < b.year || (a.year == b.year && a.month < b.month)
  }

  /** Calendar order agrees with the order of month positions. */
  lemma EarlierIffSmallerIndex(a: YearMonth, b: YearMonth)
    requires ValidMonth(a) && ValidMonth(b)
    ensures Earlier(a, b) <==> MonthIndex(a) < MonthIndex(b)
  {
  }

  /** The loop body's step: one month back, January wrapping to December of
      the previous year. */
  function Previous(ym: YearMonth): (p: YearMonth)
    requires ValidMonth(ym)
    ensures ValidMonth(p)
    ensures MonthIndex(p) == MonthIndex(ym) - 1
    ensures Earlier(p, ym)
  {
    if ym.month == 1 then YearMonth(ym.year - 1, 12) else YearMonth(ym.year, ym.month - 1)
  }

  /** get_last_six_months */
  method LastSixMonths(now: YearMonth) returns (months: seq<YearMonth>)
    requires ValidMonth(now)
    ensures |months| == MonthsShown
    ensures months[0] == now
    ensures forall i :: 0 <= i < |months| ==> ValidMonth(months[i])
    ensures forall i :: 0 < i < |months| ==> months[i] == Previous(months[i - 1])
    ensures forall i :: 0 < i < |months| && months[i - 1].month == 1 ==>
      months[i] == YearMonth(months[i - 1].year - 1, 12)
    ensures forall i :: 0 <= i < |months| ==> months[i] == FromIndex(MonthIndex(now) - i)
    ensures forall i, j :: 0 <= i < j < |months| ==> Earlier(months[j], months[i])
    ensures forall i, j :: 0 <= i < j < |months| ==> months[i] != months[j]
  {
    months := [];
    var year, month := now.year, now.month;
    for i := 0 to MonthsShown
      invariant |months| == i
      invariant 1 <= month <= 12
      invariant MonthIndex(YearMonth(year, month)) == MonthIndex(now) - i
      invariant i > 0 ==> months[0] == now
      invariant forall k :: 0 <= k < i ==> ValidMonth(months[k])
      invariant forall k :: 0 <= k < i ==> MonthIndex(months[k]) == MonthIndex(now) - k
      invariant forall k :: 0 < k < i ==> months[k] == Previous(months[k - 1])
      invariant i > 0 ==> YearMonth(year, month) == Previous(months[i - 1])
      invariant i == 0 ==> YearMonth(year, month) == now
    {
      months := months + [YearMonth(year, month)];
      month := month - 1;
      if month == 0 {
        month := 12;
        year := year - 1;
      }
    }
    forall i | 0 <= i < |months|
      ensures months[i] == FromIndex(MonthIndex(now) - i)
    {
      IndexRoundTrip(months[i]);
    }
    forall i, j | 0 <= i < j < |months|
      ensures Earlier(months[j], months[i])
    {
      EarlierIffSmallerIndex(months[j], months[i]);
    }
  }
}

=== FILE: shard_names.dfy ===
/** Which tables of the attendance database are monitored: those whose name is
    the configured prefix (default "t_lg") followed by exactly six digits
    (blueprints/monitored_tables.py, get_main_db_monitored_tables). The source
    asks SQL Server for them with the LIKE pattern `prefix + "[0-9]" * 6`; in
    LIKE an underscore or percent sign inside the prefix is a wildcard, so the
    pattern is modelled as written (`LikeMatch`) next to the intended test
    (`IsShardName`), which the rest of the model uses. */
module ShardNames {
  import opened Optional
  import Decimal

  const DefaultPrefix: string := "t_lg"
  const SuffixDigits: nat := 6

  /** The intended test: `prefix`, then exactly six decimal digits. */
  function IsShardName(prefix: string, name: string): (b: bool)
    ensures b ==> prefix < name && Decimal.AllDigits(name[|prefix|..])
  {
    && |name| == |prefix| + SuffixDigits
    && name[..|prefix|] == prefix
    && forall i :: |prefix| <= i < |name| ==> Decimal.IsDigit(name[i])
  }

  /** One element of a SQL Server LIKE pattern, as far as the monitored-table
      pattern uses them. */
  datatype LikeToken =
    | Exact(c: char)   // an ordinary character
    | AnyChar          // `_`
    | AnyRun           // `%`
    | DigitRange       // `[0-9]`

  /** The tokens a prefix contributes to a LIKE pattern. */
  function PrefixTokens(prefix: string): (p: seq<LikeToken>)
    ensures |p| == |prefix|
    ensures forall i :: 0 <= i < |prefix| ==>
      p[i] == (if prefix[i] == '_' then AnyChar else if prefix[i] == '%' then AnyRun else Exact(prefix[i]))
  {
    if |prefix| == 0 then []
    else
      var t := if prefix[0] == '_' then AnyChar else if prefix[0] == '%' then AnyRun else Exact(prefix[0]);
      [t] + PrefixTokens(prefix[1..])
  }

  /** `prefix + "[0-9][0-9][0-9][0-9][0-9][0-9]"` */
  function ShardPattern(prefix: string): (p: seq<LikeToken>)
    ensures |p| == |prefix| + SuffixDigits
    ensures p[..|prefix|] == PrefixTokens(prefix)
    ensures forall i :: |prefix| <= i < |p| ==> p[i] == DigitRange
  {
    PrefixTokens(prefix) + seq(SuffixDigits, _ => DigitRange)
  }

  /** `s LIKE p` over the tokens above (case-sensitive). */
  function LikeMatch(p: seq<LikeToken>, s: string): (r: bool)
    ensures r && (forall i :: 0 <= i < |p| ==> p[i] != AnyRun) ==> |s| == |p|
    decreases |p| + |s|
  {
    if |p| == 0 then |s| == 0
    else match p[0]
      case AnyRun => LikeMatch(p[1..], s) || (|s| > 0 && LikeMatch(p, s[1..]))
      case Exact(c) => |s| > 0 && s[0] == c && LikeMatch(p[1..], s[1..])
      case AnyChar => |s| > 0 && LikeMatch(p[1..], s[1..])
      case DigitRange => |s| > 0 && Decimal.IsDigit(s[0]) && LikeMatch(p[1..], s[1..])
  }

  predicate NoWildcards(prefix: string) {
    forall i :: 0 <= i < |prefix| ==> prefix[i] != '_' && prefix[i] != '%'
  }

  /** Six `DigitRange` tokens accept exactly the strings of six digits. */
  lemma {:induction false} DigitRunMatch(n: nat, s: string)
    ensures LikeMatch(seq(n, _ => DigitRange), s) <==> |s| == n && Decimal.AllDigits(s)
    decreases n
  {
    var p := seq(n, _ => DigitRange);
    if n > 0 {
      assert p[1..] == seq(n - 1, _ => DigitRange);
      if |s| > 0 {
        DigitRunMatch(n - 1, s[1..]);
        if Decimal.IsDigit(s[0]) && Decimal.AllDigits(s[1..]) {
          assert forall i :: 0 < i < |s| ==> s[i] == s[1..][i - 1];
        }
      }
    } else {
      assert p == [];
    }
  }

  /** `other` spells `prefix` except where `prefix` has an underscore. */
  predicate Resembles(prefix: string, other: string) {
    && |other| == |prefix|
    && forall i :: 0 <= i < |prefix| ==> other[i] == prefix[i] || prefix[i] == '_'
  }

  /** Every true shard name is matched by the LIKE pattern, wildcards or not:
      the query never misses a monitored table. */
  lemma LikeAcceptsShardNames(prefix: string, name: string)
    requires IsShardName(prefix, name)
    ensures LikeMatch(ShardPattern(prefix), name)
  {
    var suffix := name[|prefix|..];
    assert Decimal.AllDigits(suffix) by {
      assert forall i :: 0 <= i < |suffix| ==> suffix[i] == name[|prefix| + i];
    }
    DigitRunMatch(SuffixDigits, suffix);
    PrefixThenRest(prefix, prefix, seq(SuffixDigits, _ => DigitRange), suffix);
    assert prefix + suffix == name;
  }

  /** A pattern that begins with a prefix's tokens accepts anything resembling
      the prefix followed by anything the rest of the pattern accepts. */
  lemma {:induction false} PrefixThenRest(prefix: string, other: string, rest: seq<LikeToken>, s: string)
    requires Resembles(prefix, other)
    requires LikeMatch(rest, s)
    ensures LikeMatch(PrefixTokens(prefix) + rest, other + s)
    decreases |prefix|
  {
    if |prefix| > 0 {
      assert Resembles(prefix[1..], other[1..]) by {
        assert forall i :: 0 <= i < |prefix| - 1 ==>
          prefix[1..][i] == prefix[i + 1] && other[1..][i] == other[i + 1];
      }
      PrefixThenRest(prefix[1..], other[1..], rest, s);
      var p := PrefixTokens(prefix) + rest;
      var x := other + s;
      assert p[1..] == PrefixTokens(prefix[1..]) + rest;
      assert x[0] == other[0] && x[1..] == other[1..] + s;
      assert LikeMatch(p[1..], x[1..]);
      assert |p| > 0 && |x| > 0;
      if prefix[0] == '_' {
        assert p[0] == AnyChar;
        assert LikeMatch(p, x);
      } else if prefix[0] == '%' {
        assert p[0] == AnyRun;
        assert LikeMatch(p, x[1..]);
        assert LikeMatch(p, x);
      } else {
        assert p[0] == Exact(prefix[0]);
        assert x[0] == prefix[0];
        assert LikeMatch(p, x);
      }
    } else {
      assert PrefixTokens(prefix) + rest == rest && other + s == s;
    }
  }

  /** Without wildcard characters in the prefix, the LIKE pattern is exactly
      the intended test. */
  lemma {:induction false} LikeExactWithoutWildcards(prefix: string, name: string)
    requires NoWildcards(prefix)
    ensures LikeMatch(ShardPattern(prefix), name) <==> IsShardName(prefix, name)
    decreases |prefix|
  {
    if IsShardName(prefix, name) {
      LikeAcceptsShardNames(prefix, name);
    }
    if LikeMatch(ShardPattern(prefix), name) {
      LiteralPrefixMatch(prefix, name);
    }
  }

  lemma {:induction false} LiteralPrefixMatch(prefix: string, name: string)
    requires NoWildcards(prefix)
    requires LikeMatch(ShardPattern(prefix), name)
    ensures IsShardName(prefix, name)
    decreases |prefix|
  {
    var digits := seq(SuffixDigits, _ => DigitRange);
    if |prefix| == 0 {
      assert ShardPattern(prefix) == digits;
      DigitRunMatch(SuffixDigits, name);
    } else {
      var p := ShardPattern(prefix);
      assert p[0] == Exact(prefix[0]);
      assert p[1..] == ShardPattern(prefix[1..]);
      assert NoWildcards(prefix[1..]) by {
        assert forall i :: 0 <= i < |prefix| - 1 ==> prefix[1..][i] == prefix[i + 1];
      }
      LiteralPrefixMatch(prefix[1..], name[1..]);
      assert name == [name[0]] + name[1..];
      assert name[..|prefix|] == [name[0]] + name[1..][..|prefix| - 1];
      assert prefix == [prefix[0]] + prefix[1..];
      assert forall i :: |prefix| <= i < |name| ==> name[i] == name[1..][i - 1];
    }
  }

  /** The discrepancy: with the default prefix "t_lg" the query also returns a
      table named "tXlg202501", which is not the prefix followed by six digits. */
  lemma DefaultPrefixAdmitsForeignTable()
    ensures LikeMatch(ShardPattern(DefaultPrefix), "tXlg202501")
    ensures !IsShardName(DefaultPrefix, "tXlg202501")
  {
    var lookalike, digits := "tXlg", "202501";
    assert Resembles(DefaultPrefix, lookalike);
    assert Decimal.AllDigits(digits);
    DigitRunMatch(SuffixDigits, digits);
    PrefixThenRest(DefaultPrefix, lookalike, seq(SuffixDigits, _ => DigitRange), digits);
    assert lookalike + digits == "tXlg202501";
    assert "tXlg202501"[..4] != DefaultPrefix by {
      assert "tXlg202501"[1] != DefaultPrefix[1];
    }
  }

  /** A row of the row-count query: a table name and its row count. */
  datatype TableCount = TableCount(name: string, count: int)

  /** No name occurs twice, as the row-count query's `GROUP BY t.name`
      guarantees. */
  predicate DistinctNames(rows: seq<TableCount>) {
    forall i, j :: 0 <= i < j < |rows| ==> rows[i].name != rows[j].name
  }

  /** get_main_db_monitored_tables with the intended name test: `catalog` is
      every table with its summed row count in the order the query returns
      them, or None when the query raised, in which case the result is empty. */
  function MonitoredTables(prefix: string, catalog: Option<seq<TableCount>>): (tables: seq<TableCount>)
    ensures catalog.None? ==> tables == []
    ensures forall i :: 0 <= i < |tables| ==> IsShardName(prefix, tables[i].name)
    ensures catalog.Some? ==>
      forall t :: t in tables <==> t in catalog.value && IsShardName(prefix, t.name)
    ensures catalog.Some? && DistinctNames(catalog.value) ==> DistinctNames(tables)
  {
    match catalog
    case None => []
    case Some(rows) => KeepShards(prefix, rows)
  }

  /** The rows of `rows` whose name is a shard name, in their original order. */
  function KeepShards(prefix: string, rows: seq<TableCount>): (kept: seq<TableCount>)
    ensures |kept| <= |rows|
    ensures forall t :: t in kept <==> t in rows && IsShardName(prefix, t.name)
    ensures forall t :: multiset(kept)[t] == if IsShardName(prefix, t.name) then multiset(rows)[t] else 0
    ensures DistinctNames(rows) ==> DistinctNames(kept)
  {
    if |rows| == 0 then []
    else
      var rest := KeepShards(prefix, rows[1..]);
      assert rows == [rows[0]] + rows[1..];
      FilterStepDistinct(rows, IsShardName(prefix, rows[0].name), rest);
      (if IsShardName(prefix, rows[0].name) then [rows[0]] else []) + rest
  }

  /** The same query with the name test as written, through LIKE. */
  function MonitoredTablesAsWritten(prefix: string, catalog: Option<seq<TableCount>>): (tables: seq<TableCount>)
    ensures catalog.None? ==> tables == []
    ensures catalog.Some? ==>
      forall t :: t in tables <==> t in catalog.value && LikeMatch(ShardPattern(prefix), t.name)
    ensures catalog.Some? && DistinctNames(catalog.value) ==> DistinctNames(tables)
  {
    match catalog
    case None => []
    case Some(rows) => KeepLikeMatches(ShardPattern(prefix), rows)
  }

  /** The rows of `rows` whose name matches `p`, in their original order. */
  function KeepLikeMatches(p: seq<LikeToken>, rows: seq<TableCount>): (kept: seq<TableCount>)
    ensures |kept| <= |rows|
    ensures forall t :: t in kept <==> t in rows && LikeMatch(p, t.name)
    ensures forall t :: multiset(kept)[t] == if LikeMatch(p, t.name) then multiset(rows)[t] else 0
    ensures DistinctNames(rows) ==> DistinctNames(kept)
  {
    if |rows| == 0 then []
    else
      var rest := KeepLikeMatches(p, rows[1..]);
      assert rows == [rows[0]] + rows[1..];
      FilterStepDistinct(rows, LikeMatch(p, rows[0].name), rest);
      (if LikeMatch(p, rows[0].name) then [rows[0]] else []) + rest
  }

  /** One step of a row filter: when the rows have distinct names and the
      filtered tail keeps them distinct, keeping or dropping the first row
      keeps them distinct too. */
  lemma FilterStepDistinct(rows: seq<TableCount>, keepFirst: bool, rest: seq<TableCount>)
    requires |rows| > 0
    requires DistinctNames(rows[1..]) ==> DistinctNames(rest)
    requires forall t :: t in rest ==> t in rows[1..]
    ensures DistinctNames(rows) ==> DistinctNames((if keepFirst then [rows[0]] else []) + rest)
  {
    if DistinctNames(rows) {
      assert DistinctNames(rows[1..]) by {
        assert forall i :: 0 <= i < |rows| - 1 ==> rows[1..][i] == rows[i + 1];
      }
      var kept := (if keepFirst then [rows[0]] else []) + rest;
      if keepFirst {
        forall i, j | 0 <= i < j < |kept|
          ensures kept[i].name != kept[j].name
        {
          assert kept[j] == rest[j - 1] && rest[j - 1] in rest;
          if i > 0 {
            assert kept[i] == rest[i - 1];
          } else {
            var m :| 0 <= m < |rows[1..]| && rows[1..][m] == kept[j];
            assert rows[m + 1] == kept[j];
          }
        }
      } else {
        assert kept == rest;
      }
    }
  }

  /** The filter keeps the catalog order: filtering two runs of rows one after
      the other is filtering each run and joining the results. */
  lemma {:induction false} KeepShardsKeepsOrder(prefix: string, front: seq<TableCount>, back: seq<TableCount>)
    ensures KeepShards(prefix, front + back) == KeepShards(prefix, front) + KeepShards(prefix, back)
    decreases |front|
  {
    if |front| > 0 {
      assert (front + back)[1..] == front[1..] + back;
      KeepShardsKeepsOrder(prefix, front[1..], back);
    } else {
      assert front + back == back;
    }
  }

  /** The same for the LIKE filter. */
  lemma {:induction false} KeepLikeMatchesKeepsOrder(p: seq<LikeToken>, front: seq<TableCount>, back: seq<TableCount>)
    ensures KeepLikeMatches(p, front + back) == KeepLikeMatches(p, front) + KeepLikeMatches(p, back)
    decreases |front|
  {
    if |front| > 0 {
      assert (front + back)[1..] == front[1..] + back;
      KeepLikeMatchesKeepsOrder(p, front[1..], back);
    } else {
      assert front + back == back;
    }
  }

  /** The as-written query returns every table the intended one does. */
  lemma AsWrittenNeverMisses(prefix: string, catalog: Option<seq<TableCount>>)
    ensures forall t :: t in MonitoredTables(prefix, catalog) ==> t in MonitoredTablesAsWritten(prefix, catalog)
  {
    forall t | t in MonitoredTables(prefix, catalog)
      ensures t in MonitoredTablesAsWritten(prefix, catalog)
    {
      LikeAcceptsShardNames(prefix, t.name);
    }
  }

  /** Without wildcard characters in the prefix, both queries return the same
      tables. */
  lemma AsWrittenExactWithoutWildcards(prefix: string, catalog: Option<seq<TableCount>>)
    requires NoWildcards(prefix)
    ensures forall t :: t in MonitoredTables(prefix, catalog) <==> t in MonitoredTablesAsWritten(prefix, catalog)
  {
    forall t
      ensures t in MonitoredTables(prefix, catalog) <==> t in MonitoredTablesAsWritten(prefix, catalog)
    {
      LikeExactWithoutWildcards(prefix, t.name);
    }
  }
}

=== FILE: snapshot_diff.dfy ===
/** The change detector of one poll cycle (blueprints/monitored_tables.py,
    update_monitored_table_counts): the fetched `(table, row count)` rows are
    compared with the in-memory snapshot of the previous cycle, every table that
    is new or whose count differs is reported, and the snapshot is then
    replaced by the fetched rows. The process-wide snapshot variable of the
    source becomes an explicit argument and result. */
module SnapshotDiff {
  import opened Optional
  import opened ShardNames

  /** A reported change: the table, its count in the previous snapshot (None
      when the table was not in it) and its fetched count. */
  datatype Change = Change(table: string, previous: Option<int>, current: int)

  datatype Status = NoDataRetrieved | Retrieved

  /** The outcome of one cycle: whether any rows were fetched, the changes
      reported (in fetch order) and the snapshot kept for the next cycle. */
  datatype Step = Step(status: Status, changes: seq<Change>, next: map<string, int>)

  /** `previous_monitored_counts.get(name)` */
  function Lookup(snapshot: map<string, int>, name: string): (r: Option<int>)
    ensures r.Some? <==> name in snapshot
    ensures r.Some? ==> r.value == snapshot[name]
  {
    if name in snapshot then Some(snapshot[name]) else None
  }

  /** The test that triggers a change: no previous count, or a different one.
      A decrease is a change as much as an increase. */
  function Differs(previous: Option<int>, current: int): (b: bool)
    ensures b <==> previous != Some(current)
  {
    previous.None? || previous.value != current
  }

  /** The change row `e` would report against `snapshot`. */
  function ChangeFor(snapshot: map<string, int>, e: TableCount): Change {
    Change(e.name, Lookup(snapshot, e.name), e.count)
  }

  /** The names of the fetched rows. */
  function Names(fetched: seq<TableCount>): set<string> {
    set i | 0 <= i < |fetched| :: fetched[i].name
  }

  /** The changes reported for `fetched` against `snapshot`, one per changed
      row, in fetch order (`ChangesInFetchOrder`, `ChangesDistinctTables`).
      Every row is compared with the snapshot of the previous cycle, never with
      an earlier row of the same fetch. */
  function Changes(snapshot: map<string, int>, fetched: seq<TableCount>): (cs: seq<Change>)
    ensures |cs| <= |fetched|
    ensures forall c :: c in cs <==>
      exists i :: 0 <= i < |fetched| && c == ChangeFor(snapshot, fetched[i]) && Differs(c.previous, c.current)
    decreases |fetched|
  {
    if |fetched| == 0 then []
    else
      var c := ChangeFor(snapshot, fetched[0]);
      var rest := Changes(snapshot, fetched[1..]);
      assert forall i :: 0 < i < |fetched| ==> fetched[1..][i - 1] == fetched[i];
      (if Differs(c.previous, c.current) then [c] else []) + rest
  }

  /** The position of the fetched row each change comes from. */
  function ChangeOrigins(snapshot: map<string, int>, fetched: seq<TableCount>): seq<int>
    decreases |fetched|
  {
    if |fetched| == 0 then []
    else
      var rest := ChangeOrigins(snapshot, fetched[1..]);
      (if Differs(Lookup(snapshot, fetched[0].name), fetched[0].count) then [0] else []) + ShiftUp(rest)
  }

  /** Every position one further on. */
  function ShiftUp(positions: seq<int>): (r: seq<int>)
    ensures |r| == |positions|
    ensures forall k :: 0 <= k < |r| ==> r[k] == positions[k] + 1
    decreases |positions|
  {
    if |positions| == 0 then [] else [positions[0] + 1] + ShiftUp(positions[1..])
  }

  /** Changes keep the order of the rows they come from: change `k` is the
      change of row `ChangeOrigins(..)[k]`, and a later change comes from a
      later row. */
  lemma {:induction false} ChangesInFetchOrder(snapshot: map<string, int>, fetched: seq<TableCount>)
    ensures |ChangeOrigins(snapshot, fetched)| == |Changes(snapshot, fetched)|
    ensures forall k :: 0 <= k < |Changes(snapshot, fetched)| ==>
      && 0 <= ChangeOrigins(snapshot, fetched)[k] < |fetched|
      && Changes(snapshot, fetched)[k] == ChangeFor(snapshot, fetched[ChangeOrigins(snapshot, fetched)[k]])
    ensures forall k, l :: 0 <= k < l < |Changes(snapshot, fetched)| ==>
      ChangeOrigins(snapshot, fetched)[k] < ChangeOrigins(snapshot, fetched)[l]
    decreases |fetched|
  {
    if |fetched| > 0 {
      ChangesInFetchOrder(snapshot, fetched[1..]);
      var changed := Differs(Lookup(snapshot, fetched[0].name), fetched[0].count);
      OriginsStep(snapshot, fetched, changed, Changes(snapshot, fetched[1..]), ChangeOrigins(snapshot, fetched[1..]));
    }
  }

  /** One step of `ChangesInFetchOrder`: putting the first row's change (if
      any) in front of the tail's changes, and its position 0 in front of the
      tail's positions shifted up by one, keeps every change matched with its
      row and the positions increasing. */
  lemma {:induction false} OriginsStep(snapshot: map<string, int>, fetched: seq<TableCount>, changed: bool,
                    rest: seq<Change>, restOrigins: seq<int>)
    requires |fetched| > 0 && |restOrigins| == |rest|
    requires forall k :: 0 <= k < |rest| ==>
      0 <= restOrigins[k] < |fetched| - 1 && rest[k] == ChangeFor(snapshot, fetched[1..][restOrigins[k]])
    requires forall k, l :: 0 <= k < l < |rest| ==> restOrigins[k] < restOrigins[l]
    ensures var cs := (if changed then [ChangeFor(snapshot, fetched[0])] else []) + rest;
            var origins := (if changed then [0] else []) + ShiftUp(restOrigins);
            && |origins| == |cs|
            && (forall k :: 0 <= k < |cs| ==> 0 <= origins[k] < |fetched| && cs[k] == ChangeFor(snapshot, fetched[origins[k]]))
            && (forall k, l :: 0 <= k < l < |cs| ==> origins[k] < origins[l])
  {
    var shifted := ShiftUp(restOrigins);
    var skip := if changed then 1 else 0;
    var cs := (if changed then [ChangeFor(snapshot, fetched[0])] else []) + rest;
    var origins := (if changed then [0] else []) + shifted;
    forall k | skip <= k < |cs|
      ensures origins[k] == restOrigins[k - skip] + 1
      ensures 0 <= origins[k] < |fetched| && cs[k] == ChangeFor(snapshot, fetched[origins[k]])
    {
      assert origins[k] == shifted[k - skip];
      assert cs[k] == rest[k - skip];
      assert fetched[1..][restOrigins[k - skip]] == fetched[restOrigins[k - skip] + 1];
    }
    forall k, l | 0 <= k < l < |cs|
      ensures origins[k] < origins[l]
    {
      if k >= skip {
        assert restOrigins[k - skip] < restOrigins[l - skip];
      }
    }
  }

  /** With distinct fetched names (the query's GROUP BY guarantees them), no
      table is reported twice in one cycle. */
  lemma {:induction false} ChangesDistinctTables(snapshot: map<string, int>, fetched: seq<TableCount>)
    requires DistinctNames(fetched)
    ensures forall i, j :: 0 <= i < j < |Changes(snapshot, fetched)| ==>
      Changes(snapshot, fetched)[i].table != Changes(snapshot, fetched)[j].table
  {
    ChangesInFetchOrder(snapshot, fetched);
    var cs, origins := Changes(snapshot, fetched), ChangeOrigins(snapshot, fetched);
    forall i, j | 0 <= i < j < |cs|
      ensures cs[i].table != cs[j].table
    {
      assert cs[i].table == fetched[origins[i]].name && cs[j].table == fetched[origins[j]].name;
      assert origins[i] < origins[j];
    }
  }

  /** `{entry["table_name"]: entry["row_count"] for entry in fetched}`: a later
      row for the same name overwrites an earlier one. */
  function SnapshotOf(fetched: seq<TableCount>): (m: map<string, int>)
    ensures m.Keys == Names(fetched)
    ensures forall t :: t in m ==> exists i :: 0 <= i < |fetched| && fetched[i] == TableCount(t, m[t])
    decreases |fetched|
  {
    if |fetched| == 0 then map[]
    else
      var front := fetched[..|fetched| - 1];
      var last := fetched[|fetched| - 1];
      var m := SnapshotOf(front)[last.name := last.count];
      assert forall i :: 0 <= i < |front| ==> front[i] == fetched[i];
      assert Names(fetched) == Names(front) + {last.name} by {
        assert forall i :: 0 <= i < |fetched| - 1 ==> fetched[i].name == front[i].name;
      }
      m
  }

  /** One poll cycle. An empty fetch (also what a failed query returns) reports
      nothing and keeps the old snapshot. */
  function Cycle(snapshot: map<string, int>, fetched: seq<TableCount>): (r: Step)
    ensures |fetched| == 0 <==> r.status == NoDataRetrieved
    ensures |fetched| == 0 ==> r.changes == [] && r.next == snapshot
    ensures |fetched| > 0 ==> r.next.Keys == Names(fetched)
  {
    if |fetched| == 0 then Step(NoDataRetrieved, [], snapshot)
    else Step(Retrieved, Changes(snapshot, fetched), SnapshotOf(fetched))
  }

  /** With distinct names, the snapshot holds exactly the fetched pairs. */
  lemma SnapshotOfDistinct(fetched: seq<TableCount>)
    requires DistinctNames(fetched)
    ensures forall t, n :: t in SnapshotOf(fetched) && SnapshotOf(fetched)[t] == n <==> TableCount(t, n) in fetched
  {
    var m := SnapshotOf(fetched);
    forall t, n
      ensures t in m && m[t] == n <==> TableCount(t, n) in fetched
    {
      if TableCount(t, n) in fetched {
        var j :| 0 <= j < |fetched| && fetched[j] == TableCount(t, n);
        assert t in Names(fetched);
        var i :| 0 <= i < |fetched| && fetched[i] == TableCount(t, m[t]);
        assert i == j;
      }
    }
  }

  /** A fetched row is reported, with the snapshot's previous count, exactly
      when that table had no previous count or a different one. */
  lemma ChangeReportedIff(snapshot: map<string, int>, fetched: seq<TableCount>, e: TableCount)
    requires e in fetched
    ensures var c := Change(e.name, Lookup(snapshot, e.name), e.count);
      c in Cycle(snapshot, fetched).changes <==> e.name !in snapshot || snapshot[e.name] != e.count
  {
    var i :| 0 <= i < |fetched| && fetched[i] == e;
    assert ChangeFor(snapshot, fetched[i]) == Change(e.name, Lookup(snapshot, e.name), e.count);
  }

  /** A row count that went down is reported like one that went up. */
  lemma DecreaseReported(snapshot: map<string, int>, fetched: seq<TableCount>, e: TableCount)
    requires e in fetched && e.name in snapshot && e.count < snapshot[e.name]
    ensures Change(e.name, Some(snapshot[e.name]), e.count) in Cycle(snapshot, fetched).changes
  {
    ChangeReportedIff(snapshot, fetched, e);
  }

  /** A table seen for the first time is reported with no previous count. */
  lemma FirstSightingReported(snapshot: map<string, int>, fetched: seq<TableCount>, e: TableCount)
    requires e in fetched && e.name !in snapshot
    ensures Change(e.name, None, e.count) in Cycle(snapshot, fetched).changes
  {
    ChangeReportedIff(snapshot, fetched, e);
  }

  /** Every reported change comes from a fetched row and a real difference. */
  lemma ChangesAreFetched(snapshot: map<string, int>, fetched: seq<TableCount>, c: Change)
    requires c in Cycle(snapshot, fetched).changes
    ensures TableCount(c.table, c.current) in fetched
    ensures c.previous == Lookup(snapshot, c.table)
    ensures c.previous != Some(c.current)
  {
  }

  /** After a cycle with data the snapshot is exactly the fetched mapping:
      tables missing from the fetch are dropped, and with distinct names (which
      the query's GROUP BY guarantees) every name maps to its fetched count. */
  lemma SnapshotAfterCycle(snapshot: map<string, int>, fetched: seq<TableCount>)
    requires |fetched| > 0
    ensures var next := Cycle(snapshot, fetched).next;
      && (forall t :: t in snapshot && t !in Names(fetched) ==> t !in next)
      && (DistinctNames(fetched) ==>
            forall t, n :: t in next && next[t] == n <==> TableCount(t, n) in fetched)
  {
    if DistinctNames(fetched) {
      SnapshotOfDistinct(fetched);
    }
  }

  /** Running the cycle a second time on the same rows reports nothing. */
  lemma SecondCycleQuiet(snapshot: map<string, int>, fetched: seq<TableCount>)
    requires DistinctNames(fetched)
    ensures Cycle(Cycle(snapshot, fetched).next, fetched).changes == []
  {
    var next := Cycle(snapshot, fetched).next;
    var cs := Cycle(next, fetched).changes;
    if |fetched| > 0 {
      SnapshotOfDistinct(fetched);
      assert forall i :: 0 <= i < |fetched| ==> fetched[i] in fetched;
      NothingDiffersNothingReported(next, fetched);
    }
  }

  /** A snapshot that already holds every fetched count yields no change. */
  lemma {:induction false} NothingDiffersNothingReported(snapshot: map<string, int>, fetched: seq<TableCount>)
    requires forall i :: 0 <= i < |fetched| ==> fetched[i].name in snapshot && snapshot[fetched[i].name] == fetched[i].count
    ensures Changes(snapshot, fetched) == []
    decreases |fetched|
  {
    if |fetched| > 0 {
      NothingDiffersNothingReported(snapshot, fetched[1..]);
    }
  }

  /** Without distinct names the second cycle is not quiet: a name fetched
      twice keeps only its last count, and the earlier row differs from it. */
  lemma RepeatedNameNotQuiet()
    ensures var fetched := [TableCount("t_lg202501", 1), TableCount("t_lg202501", 2)];
      Cycle(Cycle(map[], fetched).next, fetched).changes == [Change("t_lg202501", Some(2), 1)]
  {
    var fetched := [TableCount("t_lg202501", 1), TableCount("t_lg202501", 2)];
    var next := SnapshotOf(fetched);
    assert next == map["t_lg202501" := 2] by {
      assert fetched[..1] == [TableCount("t_lg202501", 1)];
      assert fetched[..1][..0] == [];
    }
    assert fetched[1..] == [TableCount("t_lg202501", 2)];
    assert fetched[1..][1..] == [];
  }
}
